=== FILE: README.md ===
# Study planner: collections and derived views

A model, in Dafny, of the collection logic of a client-side study planner
(`script2.js`, the `app` object). The planner keeps three collections of
records keyed by a string id:

- subjects;
- study sessions (called schedules in the code);
- deadline-bound tasks.

The model has no DOM and no storage. It covers the operations that change
the collections and the derived values the dashboard, task list, schedule
views and insights panel read from them.

- `Seqs`: the array operations the handlers use: `filter`, `findIndex`,
  `find`, and the "replace the first record with this id, or push it"
  update. It also holds the delete-by-key filter and their laws.
- `Records`: subjects, sessions, tasks and the form values a save reads.
  A task's `type` field is called `kind`, because `type` is a Dafny keyword.
- `Planner`: the application state and its operations:
  - the three saves;
  - the three deletes, where deleting a subject cascades to its sessions
    and tasks;
  - toggling a task's completion;
  - reset;
  - the invariant "ids unique, no orphans". Every operation keeps it,
    except that a session or task save keeps it only when the chosen
    subject exists, because the code does not check that.
- `Deadlines`: the days-until-deadline count and the two deadline badges.
- `DeadlineSort`: the stable ascending sort by deadline used by the
  upcoming-deadlines panel.
- `Dashboard`:
  - the pending count;
  - the completion rate, in both of its spellings;
  - the task-list filters;
  - the upcoming-deadlines panel.
- `Schedule`: the sessions of one date (the daily view and "today") and
  the seven weekday columns of the weekly view.
- `Editor`: the subject modal's edit flow. See Findings.

Time is an integer. A task's `deadline` and the current instant `now` are
milliseconds, so `new Date(...)` comparisons become integer comparisons. A
session's `date` and `day` stay strings, because the modelled views only
compare them with `===` (after lower-casing, for `day`). Only the
left-out hours figure parses `date` with `new Date` and compares the
result with `>=` and `<=` (script2.js:175-176). Ids that the code draws
from the clock arrive as a `freshId` parameter. The edit-id field arrives
as `editId`, and an empty string selects `freshId`, as `||` does.

The code validates very little, and the model stores exactly what it stores:

- `saveSchedule` (script2.js:437-455) stores any start and end time,
  with no overlap check and no start-before-end check.
- `saveSchedule` and `saveTask` (script2.js:442, 558) store the subject
  select's value unchecked. That value can be "", the select's
  placeholder option (script2.js:624-626).
- script2.js has no reminder logic.
- The dashboard's hours figure (script2.js:170-182) sums the sessions of
  the last seven days. It is left out; see below.

## Model

| member | source | states |
|---|---|---|
| `Seqs.FirstIndex` | script2.js:310 | -1 exactly when no record carries the id. Otherwise the result is a position holding the id, and no earlier position holds it. |
| `Seqs.Find` | script2.js:608 | Nothing is found exactly when the id is absent. Otherwise the result is the record at the first position holding the id. |
| `Seqs.Upsert` | script2.js:310-315 | The id set gains the saved id. For a known id, the length is unchanged, the first slot with that id holds the new record, and every other slot is unchanged. For a new id, the record is appended and the old sequence is an unchanged prefix. |
| `Seqs.UpsertThenFind` | script2.js:450-455 | After a save, looking up the saved id returns exactly the saved record. |
| `Seqs.UpsertKeepsKeysUnique` | script2.js:450-455 | If the ids were unique before a save, they are unique after it. |
| `Seqs.UpsertIdempotent` | script2.js:566-572 | Saving the same record twice gives the same collection as saving it once. |
| `Seqs.RemoveKey` | script2.js:483 | After the delete, no record has the id. Every other id remains. Every record with another id keeps all of its copies, and survivors keep their relative order. |
| `Seqs.RemoveAfterUpsert` | script2.js:600 | Deleting an id right after saving under it equals deleting it without the save. |
| `Seqs.Filter` | script2.js:503 | Every kept element satisfies the predicate, every element that does is kept, and nothing new is added. With `FilterIsSelection`, it is the order-preserving selection that keeps every copy. |
| `Seqs.FilterLengthIsCount` | script2.js:165 | A filter's length is the number of positions whose element satisfies the predicate. |
| `Seqs.SelectionIsFilter` | script2.js:503 | Any sequence that keeps exactly the qualifying elements, every copy, in their order, is the filter's result. So every contract stated as a selection determines its result. |
| `Seqs.FilterIsSubsequence` | script2.js:503 | A filter's result is the input with elements deleted, in the original order. |
| `Seqs.FilterPartition` | script2.js:502-505 | Filtering by a predicate and by its negation splits the input. The two multisets add up to the input's, and so do the two lengths. |
| `Records.ChooseId` | script2.js:299-300 | A non-empty edit id is used as it is. An empty one, which `\|\|` treats as false, gives way to the clock's fresh id. |
| `Planner.SaveSubject` | script2.js:298-315 | Sessions and tasks are unchanged. Looking up the chosen id finds the subject built from the form. The id set gains that id. The length grows only for a new id. For a known id, the first slot holding it now holds the new subject, and every other slot is unchanged. |
| `Planner.SaveSchedule` | script2.js:437-455 | The same as `SaveSubject`, for sessions. The times are stored without any check. |
| `Planner.PriorCompleted` | script2.js:566-568 | True exactly when a task with the id exists and the first such task is completed. |
| `Planner.SaveTask` | script2.js:552-572 | An edited task replaces the first task with its id and keeps that task's `completed` flag. A new task is stored with `completed = false`. Lengths, ids and untouched slots behave as for subjects. |
| `Planner.DeleteSubject` | script2.js:340-350 | No subject has the id, and no session or task refers to it. Everything else survives: every copy, in its original relative order. |
| `Planner.DeleteSchedule` | script2.js:480-483 | Only sessions with the id disappear. The other collections are unchanged, and the surviving sessions keep their order and copies. |
| `Planner.DeleteTask` | script2.js:597-600 | Only tasks with the id disappear. The other collections are unchanged, and the surviving tasks keep their order and copies. |
| `Planner.ResetData` | script2.js:790-795 | The result holds no ids in any collection and is well formed. |
| `Planner.ToggleTask` | script2.js:607-615 | With an unknown id nothing changes. Otherwise only the first task with the id changes: its `completed` flips and every other field stays the same. |
| `Planner.ToggleTwice` | script2.js:607-615 | Toggling the same id twice restores the state. |
| `Planner.SaveSubjectKeepsWellFormed` | script2.js:310-315 | A subject save keeps ids unique and leaves no orphans. |
| `Planner.SaveScheduleKeepsWellFormed` | script2.js:450-455 | A session saved for an existing subject keeps the state well formed. |
| `Planner.SaveTaskKeepsWellFormed` | script2.js:566-572 | A task saved for an existing subject keeps the state well formed. |
| `Planner.DeleteSubjectKeepsWellFormed` | script2.js:348-350 | The cascade leaves no session or task whose subject is gone, and ids stay unique. |
| `Planner.DeleteScheduleKeepsWellFormed` | script2.js:483 | Deleting a session keeps the state well formed. |
| `Planner.DeleteTaskKeepsWellFormed` | script2.js:600 | Deleting a task keeps the state well formed. |
| `Planner.ToggleTaskKeepsWellFormed` | script2.js:608-610 | Toggling keeps the state well formed. |
| `Planner.DeleteUndoesNewTask` | script2.js:570-572 | Adding a task under a new id and then deleting that id restores the state. |
| `Deadlines.DaysUntil` | script2.js:517-519 | The count `d` is the ceiling of (deadline - now) / 86400000: (d-1) days < deadline - now <= d days. |
| `Deadlines.DaysUntilIsLeast` | script2.js:236-238 | Any day count that covers the remaining time is at least `DaysUntil`. |
| `Deadlines.DaysUntilMonotone` | script2.js:236-238 | A later deadline never gives a smaller count. |
| `Deadlines.DaysUntilExamples` | script2.js:517-519 | Due now gives 0, one day ahead gives 1, one day back gives -1, one millisecond ahead gives 1, and one millisecond back gives 0. |
| `Deadlines.TaskListBadge` | script2.js:529-535 | The badge is shown iff the task is open and due within 7 days. It is urgent iff due within 3 days. "Overdue" iff a whole day or more has passed. "Today" iff the deadline is in the last day. "Tomorrow" iff within the next day. Otherwise "n days" with 2 <= n <= 7. |
| `Deadlines.UpcomingBadge` | script2.js:236-245 | Urgent iff due within 3 days. Never "Overdue". "Today" and "Tomorrow" have the same time windows as in the task list. |
| `Deadlines.BadgesAgree` | script2.js:244-245 | An open task due between now and a week ahead shows the same badge in the upcoming panel and in the task list. |
| `Deadlines.PastDeadlineBadge` | script2.js:530-532 | An open task past its deadline always shows an urgent badge. It reads "Overdue" only after a whole day has passed, and "Today" before that. |
| `DeadlineSort.InsertByDeadline` | script2.js:228 | Inserting into a deadline-sorted sequence keeps it sorted and adds exactly the one task. |
| `DeadlineSort.SortByDeadline` | script2.js:228 | The result is sorted by ascending deadline and is a permutation of the input. |
| `DeadlineSort.SortIsStable` | script2.js:228 | For every deadline value, the tasks with that deadline appear in the same order before and after sorting. |
| `Dashboard.CompletedCount` | script2.js:185 | The number of positions holding a completed task. So it is at most the number of tasks, zero exactly when no task is completed, and the whole count exactly when every task is. |
| `Dashboard.PendingCount` | script2.js:165-167 | Pending plus completed is the number of tasks. The two groups together hold exactly the task multiset. |
| `Dashboard.RoundedPercent` | script2.js:188 | The result is 100*part/whole rounded to the nearest integer, halves up: 2w·r <= 200p + w < 2w·r + 2w. It lies in 0..100, is 0 for part 0, and 100 for part = whole. |
| `Dashboard.CompletionRate` | script2.js:185-189 | The rate lies in 0..100. It is 0 without tasks or without completed tasks, and 100 when all tasks are done. Otherwise it is the completed share, rounded half up. |
| `Dashboard.InsightsRate` | script2.js:762 | The rate lies in 0..100. It is 0 when no task is completed and 100 when all tasks are. Otherwise it is the completed share, rounded half up. |
| `Dashboard.InsightsRateMatchesDashboard` | script2.js:762 | The insights formula, which guards on a completed task existing, equals the dashboard formula, which guards on any task existing, for every task list. |
| `Dashboard.ToggleMovesOneTask` | script2.js:610 | Toggling an existing task changes the completed count by exactly one, in the direction of the flip. |
| `Dashboard.ToggleMovesRate` | script2.js:185-189 | Completing a task never lowers the rate. Reopening one never raises it. |
| `Dashboard.FilterTasks` | script2.js:500-510 | "pending", "completed" and "overdue" each return exactly the matching tasks: every copy, in input order. "all" and any other value return the list unchanged. |
| `Dashboard.PendingCompletedPartition` | script2.js:502-505 | "pending" and "completed" split the task list. Their multisets add up to it, and so do their lengths. |
| `Dashboard.OverdueWithinPending` | script2.js:506-509 | "overdue" equals "pending" filtered to deadline < now. It is an order-preserving subsequence of "pending". |
| `Dashboard.UpcomingDeadlines` | script2.js:226-229 | The result has at most 5 tasks, exactly min(5, number of eligible tasks). All are open and due at or after now. Deadlines are non-decreasing. It is a sub-multiset of the input. Every eligible task left out is due no earlier than every task shown. Ties keep their stored order; see `Dashboard.UpcomingKeepsTieOrder`. |
| `Dashboard.UpcomingKeepsTieOrder` | script2.js:227-229 | For every deadline, the panel's tasks with that deadline are a prefix of the eligible tasks with that deadline, in stored order. So tied tasks keep their stored order, and when the cap cuts a tie, the first ones in stored order are shown. |
| `Dashboard.ResetClearsViews` | script2.js:790-803 | After a reset, the pending count and rate are 0, and every filter and the upcoming panel are empty. |
| `Schedule.SessionsOnDate` | script2.js:370-372 | The result is exactly the sessions whose date equals the given date: every copy, in stored order. |
| `Schedule.WeeklyColumns` | script2.js:397-414 | There are seven columns, Monday first. Each holds exactly the sessions whose non-empty weekday name matches the column's name, ignoring case, in stored order. |
| `Schedule.WeekdayIgnoresCase` | script2.js:412-414 | Two weekday names that differ only in letter case select the same sessions. |
| `Schedule.WeeklyColumnsDisjoint` | script2.js:411-414 | No session appears in two columns. |
| `Schedule.WeeklyColumnsCover` | script2.js:411-414 | A session whose weekday name matches a column's name, ignoring case, appears in that column. |
| `Editor.OpenSubjectModal` | script2.js:629-641 | Opening the modal empties the hidden edit id, restores the default field values and shows the "Add Subject" heading, whatever the modal held before. |
| `Editor.FillSubjectModal` | script2.js:329-335 | The filled modal's edit id and fields rebuild exactly the stored subject, under the "Edit Subject" heading. |
| `Editor.EditSubjectAsWritten` | script2.js:325-338 | For an existing id, the modal ends with an empty edit id, the default field values and the "Add Subject" heading. For an unknown id, the modal is unchanged. |
| `Editor.EditAsWrittenAddsInstead` | script2.js:329-337 | As written, editing an existing subject and submitting appends a new subject built from the defaults. The edited subject stays unchanged. |
| `Editor.EditAsWrittenExample` | script2.js:329-337 | Editing "Math" (id "1") and submitting with clock id "2" leaves two subjects. |
| `Editor.EditSubject` | script2.js:325-338 | With open-then-fill order, the modal holds the found subject's id and fields under the "Edit Subject" heading. An unknown id leaves the modal unchanged. |
| `Editor.EditThenSubmitChangesNothing` | script2.js:325-338 | With open-then-fill order, editing a subject and submitting unchanged leaves the state exactly as it was. |

## Left out

- DOM reads and writes, HTML templates, modals other than the subject
  edit flow, toasts, theme, navigation, tabs, and the `settings` object.
  These are display and event wiring.
- `saveSchedule` and `saveTask` do not check that the chosen `subjectId`
  names an existing subject (script2.js:442, 558). The model stores it as
  the code does. So `Planner.SaveScheduleKeepsWellFormed` and
  `Planner.SaveTaskKeepsWellFormed` promise the invariant only when the
  subject exists, and the "Unknown" fallback the views render for an
  orphan is display only.
- Each derived view takes a single instant `now`. The code reads the clock
  once per task, with `new Date()` inside the filter and map callbacks
  (script2.js:227, 237, 508, 518). If the clock ticks during a single
  render, the tasks can be compared against slightly different instants.
  The model does not capture that.
- `localStorage` loading and saving. Storage is host I/O; the model treats
  every save as succeeding.
- `confirm()` dialogs before deletes and reset. The model takes them as
  accepted.
- `Date.now()` ids: the clock is host state, so the id is the `freshId`
  parameter.
- The weekly study-hours sum. It depends on host parsing of
  `"2000-01-01 HH:MM"` strings and on a floating-point hour total.
- The Chart.js charts and their `Math.random` data. They are a foreign
  library and randomness.
- `exportData`: Blob, URL and download plumbing.
- `changeDay`, and the `toISOString` date slicing that produces "today":
  these depend on the time zone. The date string is a parameter.
- Looking up a record's subject for its displayed name and colour (with the
  "Unknown" and "#6366f1" fallbacks). This is display only; the lookup
  itself is `Seqs.Find`.
- Parsing a task's deadline string into an instant. The deadline arrives as
  an instant, so an unparseable deadline (an invalid `Date`) is not
  modelled.
- `Deadlines.DaysUntil`: computes `Math.ceil` of the exact quotient, not of
  the floating-point one. The two agree for all deadlines within about
  10^8 days.
- `Dashboard.RoundedPercent`: rounds the exact value 100·part/whole, half
  up. `Math.round` rounds the floating-point product, which could differ
  at an exact half.
- `Schedule.WeeklyColumns`: lower-cases ASCII letters only. `toLowerCase`
  also folds other scripts. The seven weekday names are ASCII.
- `Deadlines.TaskListBadge`: the text `n + " days"` is the constructor
  `InDays(n)` rather than a string.
- The edit flows of sessions and tasks (script2.js:464-478, 581-595) have
  the same open-after-fill order as subjects. Only the subject flow is
  modelled.
- The subject count on the dashboard is `subjects.length` and carries no
  logic.

## Findings

| source | as written | input that shows it | evidently intended | confidence | as-written member | corrected member |
|---|---|---|---|---|---|---|
| script2.js:329-337 | `editSubject` fills the modal and then calls `openModal`, which resets the form, sets the hidden edit id to "" and sets the heading back to "Add Subject". | One subject `{id:"1", name:"Math"}`. Press its edit button, submit, and `Date.now()` gives "2". The result is two subjects: "1" unchanged and a new blank "2". | Open the modal first, then fill it, so that submitting replaces subject "1". | high; not executed | `Editor.EditAsWrittenAddsInstead` | `Editor.EditThenSubmitChangesNothing` |

=== FILE: dashboard.dfy ===
/** The derived values the dashboard, the task list and the analytics
    insights read from the task collection: the pending count, the
    completion rate (in its two spellings), the task-list filters and the
    upcoming-deadlines panel. */
module Dashboard {
  import opened Seqs
  import opened Records
  import opened DeadlineSort
  import opened Planner

  predicate IsCompleted(t: Task) { t.completed }
  predicate IsPending(t: Task) { !t.completed }

  /** Open tasks whose deadline instant is already behind `now`. */
  function IsOverdueAt(now: int): Task -> bool
  {
    (t: Task) => !t.completed && t.deadline < now
  }

  /** Open tasks whose deadline instant is `now` or later. */
  function IsUpcomingAt(now: int): Task -> bool
  {
    (t: Task) => !t.completed && t.deadline >= now
  }

  function DueBefore(now: int): Task -> bool
  {
    (t: Task) => t.deadline < now
  }

  /** The number of completed tasks, one per position holding a completed
      task: zero exactly when no task is done, and the whole list exactly
      when every task is. */
  function CompletedCount(ts: seq<Task>): (n: nat)
    ensures n == |set i: nat | i < |ts| && ts[i].completed|
    ensures n <= |ts|
    ensures n == 0 <==> forall i :: 0 <= i < |ts| ==> !ts[i].completed
    ensures n == |ts| <==> forall i :: 0 <= i < |ts| ==> ts[i].completed
  {
    var done := Filter(ts, IsCompleted);
    FilterFullLength(ts, IsCompleted);
    FilterLengthIsCount(ts, IsCompleted);
    assert Positions(ts, IsCompleted) == set i: nat | i < |ts| && ts[i].completed;
    assert |done| > 0 ==> done[0] in ts;
    |done|
  }

  /** The dashboard's count of tasks still to do: together with the
      completed tasks it accounts for every task exactly once. */
  function PendingCount(ts: seq<Task>): (n: nat)
    ensures n + CompletedCount(ts) == |ts|
    ensures multiset(Filter(ts, IsPending)) + multiset(Filter(ts, IsCompleted)) == multiset(ts)
  {
    FilterPartition(ts, IsPending, IsCompleted);
    |Filter(ts, IsPending)|
  }

  /* ---------------------------------------------------------------- */
  /* completion rate                                                   */
  /* ---------------------------------------------------------------- */

  /** 100 * part / whole rounded to the nearest integer, halves upwards
      (the rounding of Math.round on a non-negative value). */
  function RoundedPercent(part: nat, whole: nat): (r: nat)
    requires part <= whole && whole > 0
    ensures r <= 100
    ensures 2 * whole * r <= 200 * part + whole < 2 * whole * r + 2 * whole
    ensures part == 0 ==> r == 0
    ensures part == whole ==> r == 100
  {
    var q := (200 * part + whole) / (2 * whole);
    DivBounds(200 * part + whole, 2 * whole);
    NearestPercentFacts(part, whole, q);
    q
  }

  lemma DivBounds(a: int, b: int)
    requires b > 0
    ensures b * (a / b) <= a < b * (a / b) + b
  {
  }

  /** For a positive factor, the sign of a product is the sign of the
      other factor. */
  lemma ProductSign(a: int, b: int)
    requires a > 0
    ensures a * b > 0 <==> b > 0
  {
    if b > 0 {
      assert a * b == a * (b - 1) + a;
    } else if b < 0 {
      assert a * b == a * (b + 1) - a;
    }
  }

  /** Consequences of `q` being 100 * part / whole rounded half up. */
  lemma NearestPercentFacts(part: nat, whole: nat, q: int)
    requires part <= whole && whole > 0
    requires 2 * whole * q <= 200 * part + whole < 2 * whole * q + 2 * whole
    ensures 0 <= q <= 100
    ensures part == 0 ==> q == 0
    ensures part == whole ==> q == 100
  {
    ScaledBelow(whole, q, 201);
    ScaledAbove(whole, q, -1);
    if part == 0 {
      ScaledBelow(whole, q, 1);
    }
    if part == whole {
      ScaledAbove(whole, q, 199);
    }
  }

  /** 2 * w * q <= k * w forces 2 * q <= k. */
  lemma ScaledBelow(w: int, q: int, k: int)
    requires w > 0
    ensures 2 * w * q <= k * w ==> 2 * q <= k
  {
    ProductSign(w, 2 * q - k);
    assert w * (2 * q - k) == 2 * w * q - k * w;
  }

  /** 2 * w * q + 2 * w > k * w forces 2 * q + 2 > k. */
  lemma ScaledAbove(w: int, q: int, k: int)
    requires w > 0
    ensures 2 * w * q + 2 * w > k * w ==> 2 * q + 2 > k
  {
    ProductSign(w, 2 * q + 2 - k);
    assert w * (2 * q + 2 - k) == 2 * w * q + 2 * w - k * w;
  }

  /** A larger numerator never rounds to a smaller percentage. */
  lemma RoundedPercentMonotone(p1: nat, p2: nat, whole: nat)
    requires p1 <= p2 <= whole && whole > 0
    ensures RoundedPercent(p1, whole) <= RoundedPercent(p2, whole)
  {
    var r1, r2 := RoundedPercent(p1, whole), RoundedPercent(p2, whole);
    assert 2 * whole * r1 <= 200 * p1 + whole <= 200 * p2 + whole < 2 * whole * r2 + whole + whole;
    OrderOfScaled(whole, r1, r2);
  }

  /** 2 * w * a < 2 * w * b + 2 * w forces a <= b. */
  lemma OrderOfScaled(w: int, a: int, b: int)
    requires w > 0
    ensures 2 * w * a < 2 * w * b + 2 * w ==> a <= b
  {
    ProductSign(w, 2 * b + 2 - 2 * a);
    assert w * (2 * b + 2 - 2 * a) == 2 * w * b + 2 * w - 2 * w * a;
  }

  /** The dashboard's completion rate: 0 without tasks, otherwise the
      completed share as a rounded percentage. */
  function CompletionRate(ts: seq<Task>): (rate: nat)
    ensures rate <= 100
    ensures |ts| == 0 || CompletedCount(ts) == 0 ==> rate == 0
    ensures |ts| > 0 && CompletedCount(ts) == |ts| ==> rate == 100
    ensures |ts| > 0 ==>
              2 * |ts| * rate <= 200 * CompletedCount(ts) + |ts| < 2 * |ts| * rate + 2 * |ts|
  {
    if |ts| > 0 then RoundedPercent(CompletedCount(ts), |ts|) else 0
  }

  /** The insights panel's spelling of the rate, which guards on there
      being a completed task instead of on there being a task. */
  function InsightsRate(ts: seq<Task>): (rate: nat)
    ensures rate <= 100
    ensures CompletedCount(ts) == 0 ==> rate == 0
    ensures CompletedCount(ts) == |ts| > 0 ==> rate == 100
    ensures CompletedCount(ts) > 0 ==>
              2 * |ts| * rate <= 200 * CompletedCount(ts) + |ts| < 2 * |ts| * rate + 2 * |ts|
  {
    var completed := CompletedCount(ts);
    if completed > 0 then RoundedPercent(completed, |ts|) else 0
  }

  /** Both spellings give the same number for every task list. */
  lemma InsightsRateMatchesDashboard(ts: seq<Task>)
    ensures InsightsRate(ts) == CompletionRate(ts)
  {
  }

  /** Toggling an existing task moves exactly one task between completed
      and pending. */
  lemma ToggleMovesOneTask(st: AppState, id: Id)
    requires id in TaskIds(st)
    ensures var i := FirstIndex(st.tasks, TaskKey, id);
            CompletedCount(ToggleTask(st, id).tasks)
              == CompletedCount(st.tasks) + (if st.tasks[i].completed then -1 else 1)
  {
    var i := FirstIndex(st.tasks, TaskKey, id);
    FilterUpdateLength(st.tasks, IsCompleted, i, st.tasks[i].(completed := !st.tasks[i].completed));
  }

  /** Completing a task never lowers the completion rate, and reopening
      one never raises it. */
  lemma ToggleMovesRate(st: AppState, id: Id)
    requires id in TaskIds(st)
    ensures var i := FirstIndex(st.tasks, TaskKey, id);
            var after := CompletionRate(ToggleTask(st, id).tasks);
            if st.tasks[i].completed then after <= CompletionRate(st.tasks)
            else after >= CompletionRate(st.tasks)
  {
    ToggleMovesOneTask(st, id);
    var i := FirstIndex(st.tasks, TaskKey, id);
    var c := CompletedCount(st.tasks);
    var c' := CompletedCount(ToggleTask(st, id).tasks);
    if st.tasks[i].completed {
      RoundedPercentMonotone(c', c, |st.tasks|);
    } else {
      RoundedPercentMonotone(c, c', |st.tasks|);
    }
  }

  /* ---------------------------------------------------------------- */
  /* task-list filters                                                 */
  /* ---------------------------------------------------------------- */

  /** The task list under the selected filter. "pending", "completed"
      and "overdue" select; "all" and every other value show every task. */
  function FilterTasks(ts: seq<Task>, filter: string, now: int): (r: seq<Task>)
    ensures filter == "pending" ==> IsSelection(r, ts, IsPending)
    ensures filter == "completed" ==> IsSelection(r, ts, IsCompleted)
    ensures filter == "overdue" ==> IsSelection(r, ts, IsOverdueAt(now))
    ensures filter !in {"pending", "completed", "overdue"} ==> r == ts
  {
    if filter == "pending" then
      FilterIsSelection(ts, IsPending);
      Filter(ts, IsPending)
    else if filter == "completed" then
      FilterIsSelection(ts, IsCompleted);
      Filter(ts, IsCompleted)
    else if filter == "overdue" then
      FilterIsSelection(ts, IsOverdueAt(now));
      Filter(ts, IsOverdueAt(now))
    else ts
  }

  /** "pending" and "completed" split the task list between them. */
  lemma PendingCompletedPartition(ts: seq<Task>, now: int)
    ensures multiset(FilterTasks(ts, "pending", now)) + multiset(FilterTasks(ts, "completed", now))
            == multiset(ts)
    ensures |FilterTasks(ts, "pending", now)| + |FilterTasks(ts, "completed", now)| == |ts|
  {
    FilterPartition(ts, IsPending, IsCompleted);
  }

  /** "overdue" is the part of "pending" already past its deadline, in
      the same order. */
  lemma OverdueWithinPending(ts: seq<Task>, now: int)
    ensures FilterTasks(ts, "overdue", now) == Filter(FilterTasks(ts, "pending", now), DueBefore(now))
    ensures IsSubsequence(FilterTasks(ts, "overdue", now), FilterTasks(ts, "pending", now))
  {
    FilterFilter(ts, IsPending, DueBefore(now), IsOverdueAt(now));
    FilterIsSubsequence(Filter(ts, IsPending), DueBefore(now));
  }

  /* ---------------------------------------------------------------- */
  /* upcoming deadlines                                                */
  /* ---------------------------------------------------------------- */

  /** The panel shows at most this many tasks. */
  const UpcomingLimit: nat := 5

  /** The open tasks due at or after `now`, soonest first, cut to the
      first five. */
  function UpcomingDeadlines(ts: seq<Task>, now: int): (r: seq<Task>)
    ensures |r| <= UpcomingLimit
    ensures |r| == if |Filter(ts, IsUpcomingAt(now))| < UpcomingLimit
                   then |Filter(ts, IsUpcomingAt(now))| else UpcomingLimit
    ensures forall i :: 0 <= i < |r| ==> !r[i].completed && r[i].deadline >= now
    ensures SortedByDeadline(r)
    ensures multiset(r) <= multiset(ts)
    ensures forall t :: t in ts && !t.completed && t.deadline >= now && t !in r ==>
              forall i :: 0 <= i < |r| ==> r[i].deadline <= t.deadline
  {
    var open := Filter(ts, IsUpcomingAt(now));
    var sorted := SortByDeadline(open);
    var k := if |sorted| < UpcomingLimit then |sorted| else UpcomingLimit;
    UpcomingPrefixFacts(ts, now, sorted, k);
    sorted[..k]
  }

  /** Tasks due at the same instant keep their stored order in the panel,
      and the ones it shows are the first of them in that order: for every
      deadline, the panel's tasks with that deadline are a prefix of the
      eligible tasks with that deadline. */
  lemma UpcomingKeepsTieOrder(ts: seq<Task>, now: int, d: int)
    ensures Filter(UpcomingDeadlines(ts, now), HasDeadline(d))
              <= Filter(Filter(ts, IsUpcomingAt(now)), HasDeadline(d))
  {
    var open := Filter(ts, IsUpcomingAt(now));
    var sorted := SortByDeadline(open);
    var k := if |sorted| < UpcomingLimit then |sorted| else UpcomingLimit;
    assert UpcomingDeadlines(ts, now) == sorted[..k];
    assert sorted == sorted[..k] + sorted[k..];
    FilterAppend(sorted[..k], sorted[k..], HasDeadline(d));
    SortIsStable(open, d);
  }

  lemma UpcomingPrefixFacts(ts: seq<Task>, now: int, sorted: seq<Task>, k: nat)
    requires sorted == SortByDeadline(Filter(ts, IsUpcomingAt(now))) && k <= |sorted|
    ensures SortedByDeadline(sorted[..k])
    ensures forall i :: 0 <= i < k ==> !sorted[i].completed && sorted[i].deadline >= now
    ensures multiset(sorted[..k]) <= multiset(ts)
    ensures forall t :: t in ts && !t.completed && t.deadline >= now && t !in sorted[..k] ==>
              forall i :: 0 <= i < k ==> sorted[i].deadline <= t.deadline
  {
    PrefixFromInput(ts, now, sorted, k);
    forall i | 0 <= i < k ensures !sorted[i].completed && sorted[i].deadline >= now {
      PrefixElementIsOpen(ts, now, sorted, i);
    }
    forall t | t in ts && !t.completed && t.deadline >= now && t !in sorted[..k]
      ensures forall i :: 0 <= i < k ==> sorted[i].deadline <= t.deadline
    {
      UpcomingLeftOutIsLater(ts, now, sorted, k, t);
    }
  }

  /** An open task due from now on that the panel does not show is due no
      earlier than every task it does show. */
  lemma UpcomingLeftOutIsLater(ts: seq<Task>, now: int, sorted: seq<Task>, k: nat, t: Task)
    requires sorted == SortByDeadline(Filter(ts, IsUpcomingAt(now))) && k <= |sorted|
    requires t in ts && !t.completed && t.deadline >= now && t !in sorted[..k]
    ensures forall i :: 0 <= i < k ==> sorted[i].deadline <= t.deadline
  {
    EarliestSurvivesFilter(ts, now, t);
    assert t in multiset(sorted);
    LeftOutIsLater(sorted, k, t);
  }

  lemma PrefixFromInput(ts: seq<Task>, now: int, sorted: seq<Task>, k: nat)
    requires sorted == SortByDeadline(Filter(ts, IsUpcomingAt(now))) && k <= |sorted|
    ensures multiset(sorted[..k]) <= multiset(ts)
  {
    FilterSubMultiset(ts, IsUpcomingAt(now));
    PrefixSubMultiset(sorted, k);
  }

  lemma PrefixElementIsOpen(ts: seq<Task>, now: int, sorted: seq<Task>, i: nat)
    requires sorted == SortByDeadline(Filter(ts, IsUpcomingAt(now))) && i < |sorted|
    ensures !sorted[i].completed && sorted[i].deadline >= now
  {
    var open := Filter(ts, IsUpcomingAt(now));
    assert sorted[i] in multiset(sorted);
    assert sorted[i] in open;
    var j :| 0 <= j < |open| && open[j] == sorted[i];
    assert IsUpcomingAt(now)(open[j]);
  }

  /** What a sorted sequence's prefix leaves out is due no earlier than
      anything it keeps. */
  lemma LeftOutIsLater(sorted: seq<Task>, k: nat, t: Task)
    requires SortedByDeadline(sorted) && k <= |sorted|
    requires t in sorted && t !in sorted[..k]
    ensures forall i :: 0 <= i < k ==> sorted[i].deadline <= t.deadline
  {
    var j :| 0 <= j < |sorted| && sorted[j] == t;
    assert j >= k by {
      assert forall i :: 0 <= i < k ==> sorted[..k][i] == sorted[i];
    }
    forall i | 0 <= i < k ensures sorted[i].deadline <= t.deadline {
      assert i < j;
    }
  }

  lemma EarliestSurvivesFilter(ts: seq<Task>, now: int, t: Task)
    requires t in ts && !t.completed && t.deadline >= now
    ensures t in Filter(ts, IsUpcomingAt(now))
  {
    var m :| 0 <= m < |ts| && ts[m] == t;
    assert IsUpcomingAt(now)(ts[m]);
  }

  /** After a reset every view is empty. */
  lemma ResetClearsViews(st: AppState, filter: string, now: int)
    ensures var r := ResetData(st);
            && PendingCount(r.tasks) == 0
            && CompletionRate(r.tasks) == 0
            && FilterTasks(r.tasks, filter, now) == []
            && UpcomingDeadlines(r.tasks, now) == []
  {
  }
}

=== FILE: deadlines.dfy ===
/** Days until a deadline and the deadline badges built on that count:
    the one in the task list and the one in the dashboard's
    upcoming-deadlines panel. Instants are integers in milliseconds; the
    count is the ceiling of the exact quotient. */
module Deadlines {
  import opened Seqs
  import opened Records

  /** 1000 * 60 * 60 * 24 milliseconds. */
  const MsPerDay: int := 86400000

  /** Whole days from `now` until `deadline`, rounded up: 0 means the
      deadline lies within the last day (or is now), negative means at
      least one whole day has passed. */
  function DaysUntil(deadline: int, now: int): (d: int)
    ensures (d - 1) * MsPerDay < deadline - now <= d * MsPerDay
  {
    -((now - deadline) / MsPerDay)
  }

  /** The ceiling is the least day count that covers the remaining time. */
  lemma DaysUntilIsLeast(deadline: int, now: int, d: int)
    requires deadline - now <= d * MsPerDay
    ensures DaysUntil(deadline, now) <= d
  {
  }

  /** The count grows with the deadline. */
  lemma DaysUntilMonotone(d1: int, d2: int, now: int)
    requires d1 <= d2
    ensures DaysUntil(d1, now) <= DaysUntil(d2, now)
  {
    DaysUntilIsLeast(d1, now, DaysUntil(d2, now));
  }

  /** The same deadline, the next day and the previous day. */
  lemma DaysUntilExamples(now: int)
    ensures DaysUntil(now, now) == 0
    ensures DaysUntil(now + MsPerDay, now) == 1
    ensures DaysUntil(now - MsPerDay, now) == -1
    ensures DaysUntil(now + 1, now) == 1
    ensures DaysUntil(now - 1, now) == 0
  {
  }

  /** The badge's colour class. */
  datatype Urgency = Urgent | Soon

  /** The badge's text: "Overdue", "Today", "Tomorrow" or "<n> days". */
  datatype DueLabel = Overdue | Today | Tomorrow | InDays(days: int)

  datatype Badge = Badge(urgency: Urgency, text: DueLabel)

  /** The task list's badge: shown only for a task that is not completed
      and is due within seven days or overdue. */
  function TaskListBadge(t: Task, now: int): (b: Option<Badge>)
    ensures b.Some? <==> !t.completed && t.deadline - now <= 7 * MsPerDay
    ensures b.Some? ==> (b.value.urgency == Urgent <==> t.deadline - now <= 3 * MsPerDay)
    ensures b.Some? ==> (b.value.text == Overdue <==> t.deadline - now <= -MsPerDay)
    ensures b.Some? ==> (b.value.text == Today <==> -MsPerDay < t.deadline - now <= 0)
    ensures b.Some? ==> (b.value.text == Tomorrow <==> 0 < t.deadline - now <= MsPerDay)
    ensures b.Some? && b.value.text.InDays? ==>
              var n := b.value.text.days;
              2 <= n <= 7 && (n - 1) * MsPerDay < t.deadline - now <= n * MsPerDay
  {
    var days := DaysUntil(t.deadline, now);
    if !t.completed && days <= 7 then
      var urgency := if days < 0 then Urgent else if days <= 3 then Urgent else Soon;
      var text :=
        if days < 0 then Overdue
        else if days == 0 then Today
        else if days == 1 then Tomorrow
        else InDays(days);
      Some(Badge(urgency, text))
    else None
  }

  /** The upcoming-deadlines panel's badge: always shown, and with no
      "Overdue" case. */
  function UpcomingBadge(t: Task, now: int): (b: Badge)
    ensures b.urgency == Urgent <==> t.deadline - now <= 3 * MsPerDay
    ensures b.text != Overdue
    ensures b.text == Today <==> -MsPerDay < t.deadline - now <= 0
    ensures b.text == Tomorrow <==> 0 < t.deadline - now <= MsPerDay
    ensures b.text.InDays? ==>
              var n := b.text.days;
              (n - 1) * MsPerDay < t.deadline - now <= n * MsPerDay && (n < 0 || n >= 2)
  {
    var days := DaysUntil(t.deadline, now);
    Badge(
      if days <= 3 then Urgent else Soon,
      if days == 0 then Today else if days == 1 then Tomorrow else InDays(days))
  }

  /** For a task that is still due and at most a week away, both places
      show the same badge. */
  lemma BadgesAgree(t: Task, now: int)
    requires !t.completed && now <= t.deadline <= now + 7 * MsPerDay
    ensures TaskListBadge(t, now) == Some(UpcomingBadge(t, now))
  {
  }

  /** An open task whose deadline has passed shows an urgent badge that
      reads "Overdue" only once a whole day has gone by, and "Today"
      before that. */
  lemma PastDeadlineBadge(t: Task, now: int)
    requires !t.completed && t.deadline < now
    ensures TaskListBadge(t, now).Some?
    ensures TaskListBadge(t, now).value.urgency == Urgent
    ensures TaskListBadge(t, now).value.text == (if t.deadline <= now - MsPerDay then Overdue else Today)
  {
  }
}

=== FILE: editor.dfy ===
/** The subject modal and the edit flow that feeds the save handler. The
    edit handler fills the modal from the stored subject and only then
    opens it, and opening the modal resets the form and clears the hidden
    edit-id field; so the modal shows an empty "Add Subject" form and
    submitting it stores a new subject instead of changing the old one.
    `EditSubjectAsWritten` models that order; `EditSubject` opens first
    and fills afterwards, which is what the edit button is for. The
    form's default field values come from the page and are a parameter. */
module Editor {
  import opened Seqs
  import opened Records
  import opened Planner

  /** The hidden edit-id field, the visible fields and the heading. */
  datatype SubjectModal = SubjectModal(editId: Id, fields: SubjectForm, heading: string)

  /** Opening the modal: fields back to their defaults, edit id cleared,
      the "add" heading. */
  function OpenSubjectModal(m: SubjectModal, defaults: SubjectForm): (r: SubjectModal)
    ensures r.editId == "" && r.fields == defaults && r.heading == "Add Subject"
  {
    SubjectModal("", defaults, "Add Subject")
  }

  /** Filling the modal from a stored subject. */
  function FillSubjectModal(m: SubjectModal, s: Subject): (r: SubjectModal)
    ensures SubjectFromForm(r.editId, r.fields) == s
    ensures r.heading == "Edit Subject"
  {
    SubjectModal(s.id, SubjectForm(s.name, s.code, s.color, s.priority, s.notes), "Edit Subject")
  }

  /** Submitting the modal saves its fields under its edit id, or under a
      fresh id when the edit id is empty. */
  function SubmitSubjectModal(st: AppState, m: SubjectModal, freshId: Id): AppState
  {
    SaveSubject(st, m.editId, freshId, m.fields)
  }

  /** The edit handler as written: fill, then open. An unknown id leaves
      the modal as it was. */
  function EditSubjectAsWritten(m: SubjectModal, subjects: seq<Subject>, id: Id, defaults: SubjectForm): (r: SubjectModal)
    ensures Find(subjects, SubjectKey, id).None? ==> r == m
    ensures Find(subjects, SubjectKey, id).Some? ==>
              r.editId == "" && r.fields == defaults && r.heading == "Add Subject"
  {
    match Find(subjects, SubjectKey, id)
    case Some(s) => OpenSubjectModal(FillSubjectModal(m, s), defaults)
    case None => m
  }

  /** As written, editing an existing subject and submitting the modal
      appends a new subject built from the default fields and leaves the
      edited subject exactly as it was. */
  lemma EditAsWrittenAddsInstead(st: AppState, m: SubjectModal, id: Id, defaults: SubjectForm, freshId: Id)
    requires id in SubjectIds(st) && freshId !in SubjectIds(st)
    ensures var r := SubmitSubjectModal(st, EditSubjectAsWritten(m, st.subjects, id, defaults), freshId);
            && |r.subjects| == |st.subjects| + 1
            && r.subjects[..|st.subjects|] == st.subjects
            && r.subjects[|st.subjects|] == SubjectFromForm(freshId, defaults)
  {
  }

  /** A concrete instance: one subject "Math" under id "1", edited and
      submitted while the clock yields id "2", leaves two subjects. */
  lemma EditAsWrittenExample()
    ensures var math := Subject("1", "Math", "MA101", "#6366f1", "high", "");
            var blank := SubjectForm("", "", "#6366f1", "medium", "");
            var st := AppState([math], [], []);
            var r := SubmitSubjectModal(st, EditSubjectAsWritten(SubjectModal("", blank, "Add Subject"), st.subjects, "1", blank), "2");
            r.subjects == [math, Subject("2", "", "", "#6366f1", "medium", "")]
  {
    var math := Subject("1", "Math", "MA101", "#6366f1", "high", "");
    var blank := SubjectForm("", "", "#6366f1", "medium", "");
    var st := AppState([math], [], []);
    assert Find(st.subjects, SubjectKey, "1") == Some(math) by {
      assert FirstIndex(st.subjects, SubjectKey, "1") == 0;
    }
    assert "2" !in SubjectIds(st) by {
      assert SubjectIds(st) == {"1"};
    }
  }

  /** The edit handler with the evident order: open, then fill. */
  function EditSubject(m: SubjectModal, subjects: seq<Subject>, id: Id, defaults: SubjectForm): (r: SubjectModal)
    ensures Find(subjects, SubjectKey, id).None? ==> r == m
    ensures Find(subjects, SubjectKey, id).Some? ==>
              && r.heading == "Edit Subject"
              && SubjectFromForm(r.editId, r.fields) == Find(subjects, SubjectKey, id).value
  {
    match Find(subjects, SubjectKey, id)
    case Some(s) => FillSubjectModal(OpenSubjectModal(m, defaults), s)
    case None => m
  }

  /** Editing a subject and submitting the modal unchanged leaves the
      state exactly as it was. */
  lemma EditThenSubmitChangesNothing(st: AppState, m: SubjectModal, id: Id, defaults: SubjectForm, freshId: Id)
    requires id in SubjectIds(st) && id != ""
    ensures SubmitSubjectModal(st, EditSubject(m, st.subjects, id, defaults), freshId) == st
  {
    var i := FirstIndex(st.subjects, SubjectKey, id);
    assert st.subjects[i := st.subjects[i]] == st.subjects;
  }
}

=== FILE: planner.dfy ===
/** The application state and the operations that change it: the save
    handlers for subjects, sessions and tasks, the three deletes (a
    subject's cascading to its sessions and tasks), toggling a task and
    resetting everything. Confirmation dialogs are taken as accepted,
    persistence is left to the host, and form values arrive as
    parameters. */
module Planner {
  import opened Seqs
  import opened Records

  datatype AppState = AppState(subjects: seq<Subject>, schedules: seq<Session>, tasks: seq<Task>)

  function SubjectIds(st: AppState): set<Id> { Keys(st.subjects, SubjectKey) }
  function SessionIds(st: AppState): set<Id> { Keys(st.schedules, SessionKey) }
  function TaskIds(st: AppState): set<Id> { Keys(st.tasks, TaskKey) }

  /** Every session and every task refers to a subject that exists. */
  predicate NoOrphans(st: AppState)
  {
    && (forall i :: 0 <= i < |st.schedules| ==> st.schedules[i].subjectId in SubjectIds(st))
    && (forall i :: 0 <= i < |st.tasks| ==> st.tasks[i].subjectId in SubjectIds(st))
  }

  /** Ids are unique within each collection and nothing is orphaned. */
  predicate WellFormed(st: AppState)
  {
    && UniqueKeys(st.subjects, SubjectKey)
    && UniqueKeys(st.schedules, SessionKey)
    && UniqueKeys(st.tasks, TaskKey)
    && NoOrphans(st)
  }

  /* ---------------------------------------------------------------- */
  /* saving                                                            */
  /* ---------------------------------------------------------------- */

  /** Submit the subject form: replace the subject carrying the chosen id,
      or append a new one. */
  function SaveSubject(st: AppState, editId: Id, freshId: Id, f: SubjectForm): (r: AppState)
    ensures r.schedules == st.schedules && r.tasks == st.tasks
    ensures var id := ChooseId(editId, freshId);
            && Find(r.subjects, SubjectKey, id) == Some(SubjectFromForm(id, f))
            && SubjectIds(r) == SubjectIds(st) + {id}
            && |r.subjects| == (if id in SubjectIds(st) then |st.subjects| else |st.subjects| + 1)
            && (id in SubjectIds(st) ==> r.subjects[FirstIndex(st.subjects, SubjectKey, id)] == SubjectFromForm(id, f))
            && forall j :: 0 <= j < |st.subjects| && j != FirstIndex(st.subjects, SubjectKey, id) ==>
                 r.subjects[j] == st.subjects[j]
  {
    var s := SubjectFromForm(ChooseId(editId, freshId), f);
    UpsertThenFind(st.subjects, SubjectKey, s);
    st.(subjects := Upsert(st.subjects, SubjectKey, s))
  }

  /** Submit the session form. No check is made on the times or on
      overlaps with other sessions: any values are stored. */
  function SaveSchedule(st: AppState, editId: Id, freshId: Id, f: SessionForm): (r: AppState)
    ensures r.subjects == st.subjects && r.tasks == st.tasks
    ensures var id := ChooseId(editId, freshId);
            && Find(r.schedules, SessionKey, id) == Some(SessionFromForm(id, f))
            && SessionIds(r) == SessionIds(st) + {id}
            && |r.schedules| == (if id in SessionIds(st) then |st.schedules| else |st.schedules| + 1)
            && (id in SessionIds(st) ==> r.schedules[FirstIndex(st.schedules, SessionKey, id)] == SessionFromForm(id, f))
            && forall j :: 0 <= j < |st.schedules| && j != FirstIndex(st.schedules, SessionKey, id) ==>
                 r.schedules[j] == st.schedules[j]
  {
    var s := SessionFromForm(ChooseId(editId, freshId), f);
    UpsertThenFind(st.schedules, SessionKey, s);
    st.(schedules := Upsert(st.schedules, SessionKey, s))
  }

  /** Whether the task that a save under `id` replaces was completed;
      false when no task has that id. */
  function PriorCompleted(tasks: seq<Task>, id: Id): (c: bool)
    ensures c <==> id in Keys(tasks, TaskKey) && tasks[FirstIndex(tasks, TaskKey, id)].completed
  {
    match Find(tasks, TaskKey, id)
    case Some(prev) => prev.completed
    case None => false
  }

  /** Submit the task form. An edited task keeps its completion flag; a
      new task starts out not completed. */
  function SaveTask(st: AppState, editId: Id, freshId: Id, f: TaskForm): (r: AppState)
    ensures r.subjects == st.subjects && r.schedules == st.schedules
    ensures var id := ChooseId(editId, freshId);
            && |r.tasks| == (if id in TaskIds(st) then |st.tasks| else |st.tasks| + 1)
            && (id !in TaskIds(st) ==> Find(r.tasks, TaskKey, id) == Some(TaskFromForm(id, f, false)))
            && (id in TaskIds(st) ==>
                  var i := FirstIndex(st.tasks, TaskKey, id);
                  && r.tasks[i] == TaskFromForm(id, f, st.tasks[i].completed)
                  && Find(r.tasks, TaskKey, id) == Some(TaskFromForm(id, f, st.tasks[i].completed)))
            && TaskIds(r) == TaskIds(st) + {id}
            && forall j :: 0 <= j < |st.tasks| && j != FirstIndex(st.tasks, TaskKey, id) ==>
                 r.tasks[j] == st.tasks[j]
  {
    var id := ChooseId(editId, freshId);
    var t := TaskFromForm(id, f, PriorCompleted(st.tasks, id));
    UpsertThenFind(st.tasks, TaskKey, t);
    st.(tasks := Upsert(st.tasks, TaskKey, t))
  }

  /* ---------------------------------------------------------------- */
  /* deleting                                                          */
  /* ---------------------------------------------------------------- */

  /** Delete a subject together with every session and task that refers
      to it. Everything else survives, every copy of it, in its original
      relative order. */
  function DeleteSubject(st: AppState, id: Id): (r: AppState)
    ensures id !in SubjectIds(r)
    ensures forall s :: s in r.subjects ==> s in st.subjects && s.id != id
    ensures forall s :: s in r.schedules ==> s in st.schedules && s.subjectId != id
    ensures forall t :: t in r.tasks ==> t in st.tasks && t.subjectId != id
    ensures forall i :: 0 <= i < |st.subjects| && st.subjects[i].id != id ==>
              multiset(r.subjects)[st.subjects[i]] == multiset(st.subjects)[st.subjects[i]]
    ensures forall i :: 0 <= i < |st.schedules| && st.schedules[i].subjectId != id ==>
              multiset(r.schedules)[st.schedules[i]] == multiset(st.schedules)[st.schedules[i]]
    ensures forall i :: 0 <= i < |st.tasks| && st.tasks[i].subjectId != id ==>
              multiset(r.tasks)[st.tasks[i]] == multiset(st.tasks)[st.tasks[i]]
    ensures IsSubsequence(r.subjects, st.subjects)
    ensures IsSubsequence(r.schedules, st.schedules)
    ensures IsSubsequence(r.tasks, st.tasks)
  {
    AppState(
      RemoveKey(st.subjects, SubjectKey, id),
      RemoveKey(st.schedules, SessionSubject, id),
      RemoveKey(st.tasks, TaskSubject, id))
  }

  /** Delete every session with the given id; nothing else changes. */
  function DeleteSchedule(st: AppState, id: Id): (r: AppState)
    ensures r.subjects == st.subjects && r.tasks == st.tasks
    ensures SessionIds(r) == SessionIds(st) - {id}
    ensures forall s :: s in r.schedules ==> s in st.schedules
    ensures forall i :: 0 <= i < |st.schedules| && st.schedules[i].id != id ==>
              multiset(r.schedules)[st.schedules[i]] == multiset(st.schedules)[st.schedules[i]]
    ensures IsSubsequence(r.schedules, st.schedules)
  {
    st.(schedules := RemoveKey(st.schedules, SessionKey, id))
  }

  /** Delete every task with the given id; nothing else changes. */
  function DeleteTask(st: AppState, id: Id): (r: AppState)
    ensures r.subjects == st.subjects && r.schedules == st.schedules
    ensures TaskIds(r) == TaskIds(st) - {id}
    ensures forall t :: t in r.tasks ==> t in st.tasks
    ensures forall i :: 0 <= i < |st.tasks| && st.tasks[i].id != id ==>
              multiset(r.tasks)[st.tasks[i]] == multiset(st.tasks)[st.tasks[i]]
    ensures IsSubsequence(r.tasks, st.tasks)
  {
    st.(tasks := RemoveKey(st.tasks, TaskKey, id))
  }

  /** Empty all three collections. */
  function ResetData(st: AppState): (r: AppState)
    ensures WellFormed(r)
    ensures SubjectIds(r) == SessionIds(r) == TaskIds(r) == {}
  {
    AppState([], [], [])
  }

  /* ---------------------------------------------------------------- */
  /* toggling                                                          */
  /* ---------------------------------------------------------------- */

  /** Flip the completion flag of the first task with the given id. */
  function ToggleTask(st: AppState, id: Id): (r: AppState)
    ensures r.subjects == st.subjects && r.schedules == st.schedules
    ensures |r.tasks| == |st.tasks|
    ensures id !in TaskIds(st) ==> r == st
    ensures id in TaskIds(st) ==>
              var i := FirstIndex(st.tasks, TaskKey, id);
              && r.tasks[i].completed == !st.tasks[i].completed
              && SameExceptCompleted(r.tasks[i], st.tasks[i])
              && forall j :: 0 <= j < |st.tasks| && j != i ==> r.tasks[j] == st.tasks[j]
  {
    var i := FirstIndex(st.tasks, TaskKey, id);
    if i < 0 then st
    else st.(tasks := st.tasks[i := st.tasks[i].(completed := !st.tasks[i].completed)])
  }

  /** Toggling the same id twice restores the state. */
  lemma ToggleTwice(st: AppState, id: Id)
    ensures ToggleTask(ToggleTask(st, id), id) == st
  {
    var r := ToggleTask(st, id);
    if id in TaskIds(st) {
      FirstIndexSameKeys(st.tasks, r.tasks, TaskKey, id);
      var i := FirstIndex(st.tasks, TaskKey, id);
      assert ToggleTask(r, id).tasks == r.tasks[i := st.tasks[i]];
      assert r.tasks[i := st.tasks[i]] == st.tasks;
    }
  }

  /* ---------------------------------------------------------------- */
  /* the well-formedness invariant                                     */
  /* ---------------------------------------------------------------- */

  lemma SaveSubjectKeepsWellFormed(st: AppState, editId: Id, freshId: Id, f: SubjectForm)
    requires WellFormed(st)
    ensures WellFormed(SaveSubject(st, editId, freshId, f))
  {
    UpsertKeepsKeysUnique(st.subjects, SubjectKey, SubjectFromForm(ChooseId(editId, freshId), f));
  }

  /** A session saved for an existing subject keeps the state well formed. */
  lemma SaveScheduleKeepsWellFormed(st: AppState, editId: Id, freshId: Id, f: SessionForm)
    requires WellFormed(st) && f.subjectId in SubjectIds(st)
    ensures WellFormed(SaveSchedule(st, editId, freshId, f))
  {
    var s := SessionFromForm(ChooseId(editId, freshId), f);
    UpsertKeepsKeysUnique(st.schedules, SessionKey, s);
    var r := SaveSchedule(st, editId, freshId, f);
    forall i | 0 <= i < |r.schedules| ensures r.schedules[i].subjectId in SubjectIds(r) {
      if r.schedules[i] != s {
        assert i < |st.schedules| && r.schedules[i] == st.schedules[i];
      }
    }
  }

  /** A task saved for an existing subject keeps the state well formed. */
  lemma SaveTaskKeepsWellFormed(st: AppState, editId: Id, freshId: Id, f: TaskForm)
    requires WellFormed(st) && f.subjectId in SubjectIds(st)
    ensures WellFormed(SaveTask(st, editId, freshId, f))
  {
    var id := ChooseId(editId, freshId);
    var t := TaskFromForm(id, f, PriorCompleted(st.tasks, id));
    UpsertKeepsKeysUnique(st.tasks, TaskKey, t);
    var r := SaveTask(st, editId, freshId, f);
    forall i | 0 <= i < |r.tasks| ensures r.tasks[i].subjectId in SubjectIds(r) {
      if r.tasks[i] != t {
        assert i < |st.tasks| && r.tasks[i] == st.tasks[i];
      }
    }
  }

  /** The cascade leaves no session or task behind without its subject. */
  lemma DeleteSubjectKeepsWellFormed(st: AppState, id: Id)
    requires WellFormed(st)
    ensures WellFormed(DeleteSubject(st, id))
  {
    DeleteSubjectKeepsIdsUnique(st, id);
    DeleteSubjectLeavesNoOrphans(st, id);
  }

  lemma DeleteSubjectKeepsIdsUnique(st: AppState, id: Id)
    requires UniqueKeys(st.subjects, SubjectKey)
    requires UniqueKeys(st.schedules, SessionKey)
    requires UniqueKeys(st.tasks, TaskKey)
    ensures var r := DeleteSubject(st, id);
            && UniqueKeys(r.subjects, SubjectKey)
            && UniqueKeys(r.schedules, SessionKey)
            && UniqueKeys(r.tasks, TaskKey)
  {
    RemoveKeepsKeysUnique(st.subjects, SubjectKey, SubjectKey, id);
    RemoveKeepsKeysUnique(st.schedules, SessionKey, SessionSubject, id);
    RemoveKeepsKeysUnique(st.tasks, TaskKey, TaskSubject, id);
  }

  lemma DeleteSubjectLeavesNoOrphans(st: AppState, id: Id)
    requires NoOrphans(st)
    ensures NoOrphans(DeleteSubject(st, id))
  {
    RemovePrunesReferences(st.schedules, SessionSubject, id, SubjectIds(st));
    RemovePrunesReferences(st.tasks, TaskSubject, id, SubjectIds(st));
  }

  lemma DeleteScheduleKeepsWellFormed(st: AppState, id: Id)
    requires WellFormed(st)
    ensures WellFormed(DeleteSchedule(st, id))
  {
    var r := DeleteSchedule(st, id);
    FilterKeepsKeysUnique(st.schedules, KeyIsNot(SessionKey, id), SessionKey);
    forall i | 0 <= i < |r.schedules| ensures r.schedules[i].subjectId in SubjectIds(r) {
      assert r.schedules[i] in r.schedules;
      var j :| 0 <= j < |st.schedules| && st.schedules[j] == r.schedules[i];
    }
  }

  lemma DeleteTaskKeepsWellFormed(st: AppState, id: Id)
    requires WellFormed(st)
    ensures WellFormed(DeleteTask(st, id))
  {
    var r := DeleteTask(st, id);
    FilterKeepsKeysUnique(st.tasks, KeyIsNot(TaskKey, id), TaskKey);
    forall i | 0 <= i < |r.tasks| ensures r.tasks[i].subjectId in SubjectIds(r) {
      assert r.tasks[i] in r.tasks;
      var j :| 0 <= j < |st.tasks| && st.tasks[j] == r.tasks[i];
    }
  }

  lemma ToggleTaskKeepsWellFormed(st: AppState, id: Id)
    requires WellFormed(st)
    ensures WellFormed(ToggleTask(st, id))
  {
    var r := ToggleTask(st, id);
    assert forall j :: 0 <= j < |r.tasks| ==>
      r.tasks[j].id == st.tasks[j].id && r.tasks[j].subjectId == st.tasks[j].subjectId;
  }

  /** Adding a task under a new id and deleting it again restores the state. */
  lemma DeleteUndoesNewTask(st: AppState, editId: Id, freshId: Id, f: TaskForm)
    requires ChooseId(editId, freshId) !in TaskIds(st)
    ensures DeleteTask(SaveTask(st, editId, freshId, f), ChooseId(editId, freshId)) == st
  {
    var id := ChooseId(editId, freshId);
    var t := TaskFromForm(id, f, PriorCompleted(st.tasks, id));
    RemoveAfterUpsert(st.tasks, TaskKey, t);
    RemoveAbsentKey(st.tasks, TaskKey, id);
  }
}

=== FILE: records.dfy ===
/** The planner's three record kinds, the form values a save handler reads,
    and the key functions the collections are indexed by. Every field the
    application stores is kept; a task's `type` field is called `kind`
    here because `type` is a Dafny keyword. Task deadlines are instants in
    milliseconds; session dates and weekday names stay the strings the
    forms produce, because the views modelled here only compare them with
    `===`. Only the weekly study-hours figure, which this model leaves
    out, parses the date string into an instant. */
module Records {

  type Id = string

  datatype Subject = Subject(
    id: Id, name: string, code: string, color: string, priority: string, notes: string)

  datatype Session = Session(
    id: Id, subjectId: Id, date: string, day: string,
    startTime: string, endTime: string, topic: string)

  datatype Task = Task(
    id: Id, title: string, subjectId: Id, kind: string, deadline: int,
    priority: string, description: string, completed: bool)

  /** Values of the subject form's visible fields. */
  datatype SubjectForm = SubjectForm(
    name: string, code: string, color: string, priority: string, notes: string)

  /** Values of the session form's visible fields. */
  datatype SessionForm = SessionForm(
    subjectId: Id, date: string, day: string, startTime: string, endTime: string, topic: string)

  /** Values of the task form's visible fields. */
  datatype TaskForm = TaskForm(
    title: string, subjectId: Id, kind: string, deadline: int, priority: string, description: string)

  function SubjectKey(s: Subject): Id { s.id }
  function SessionKey(s: Session): Id { s.id }
  function TaskKey(t: Task): Id { t.id }
  function SessionSubject(s: Session): Id { s.subjectId }
  function TaskSubject(t: Task): Id { t.subjectId }

  /** The id a save handler uses: the hidden edit-id field when it is
      non-empty (an empty string is falsy), otherwise a freshly generated
      id, which the host clock supplies and is a parameter here. */
  function ChooseId(editId: Id, freshId: Id): (id: Id)
    ensures editId != "" ==> id == editId
    ensures editId == "" ==> id == freshId
  {
    if editId != "" then editId else freshId
  }

  function SubjectFromForm(id: Id, f: SubjectForm): Subject
  {
    Subject(id, f.name, f.code, f.color, f.priority, f.notes)
  }

  function SessionFromForm(id: Id, f: SessionForm): Session
  {
    Session(id, f.subjectId, f.date, f.day, f.startTime, f.endTime, f.topic)
  }

  function TaskFromForm(id: Id, f: TaskForm, completed: bool): Task
  {
    Task(id, f.title, f.subjectId, f.kind, f.deadline, f.priority, f.description, completed)
  }

  /** `a` and `b` agree on every field except, possibly, `completed`. */
  predicate SameExceptCompleted(a: Task, b: Task)
  {
    a.(completed := b.completed) == b
  }
}

=== FILE: schedule.dfy ===
/** The schedule views: the sessions of one calendar date (the daily view
    and the dashboard's "today" list) and the weekly view, which sorts
    sessions into seven columns by their weekday name, compared without
    regard to letter case. The weekday name is a field of its own and is
    never derived from the date. */
module Schedule {
  import opened Seqs
  import opened Records

  function OnDate(date: string): Session -> bool
  {
    (s: Session) => s.date == date
  }

  /** The sessions whose date string equals `date`, in stored order. */
  function SessionsOnDate(ss: seq<Session>, date: string): (r: seq<Session>)
    ensures IsSelection(r, ss, OnDate(date))
    ensures forall s :: s in r <==> s in ss && s.date == date
  {
    FilterIsSelection(ss, OnDate(date));
    Filter(ss, OnDate(date))
  }

  /** Lower-casing of one character; only the ASCII letters change. */
  function LowerChar(c: char): char
  {
    if 'A' <= c <= 'Z' then (c as int + 32) as char else c
  }

  function ToLower(s: string): string
  {
    seq(|s|, i requires 0 <= i < |s| => LowerChar(s[i]))
  }

  /** A session belongs to a weekday column when its weekday name is
      non-empty and equals the column's name once both are lower-cased. */
  function OnWeekday(day: string): Session -> bool
  {
    (s: Session) => s.day != "" && ToLower(s.day) == ToLower(day)
  }

  const WeekDays: seq<string> :=
    ["Monday", "Tuesday", "Wednesday", "Thursday", "Friday", "Saturday", "Sunday"]

  /** The weekly view: one column per weekday, Monday first, each holding
      that weekday's sessions in stored order. */
  function WeeklyColumns(ss: seq<Session>): (cols: seq<seq<Session>>)
    ensures |cols| == |WeekDays|
    ensures forall d :: 0 <= d < |cols| ==> IsSelection(cols[d], ss, OnWeekday(WeekDays[d]))
  {
    forall d | 0 <= d < |WeekDays| ensures IsSelection(Filter(ss, OnWeekday(WeekDays[d])), ss, OnWeekday(WeekDays[d])) {
      FilterIsSelection(ss, OnWeekday(WeekDays[d]));
    }
    seq(|WeekDays|, d requires 0 <= d < |WeekDays| => Filter(ss, OnWeekday(WeekDays[d])))
  }

  /** Two weekday names that differ only in letter case pick the same
      sessions. */
  lemma WeekdayIgnoresCase(ss: seq<Session>, a: string, b: string)
    requires ToLower(a) == ToLower(b)
    ensures Filter(ss, OnWeekday(a)) == Filter(ss, OnWeekday(b))
  {
    FilterExt(ss, OnWeekday(a), OnWeekday(b));
  }

  /** The seven weekday names stay distinct once lower-cased. */
  lemma WeekDaysDistinct(d1: nat, d2: nat)
    requires d1 < |WeekDays| && d2 < |WeekDays| && d1 != d2
    ensures ToLower(WeekDays[d1]) != ToLower(WeekDays[d2])
  {
    var a, b := WeekDays[d1], WeekDays[d2];
    if a[0] != b[0] {
      assert ToLower(a)[0] != ToLower(b)[0];
    } else {
      assert ToLower(a)[1] != ToLower(b)[1];
    }
  }

  /** No session appears in two columns of the weekly view. */
  lemma WeeklyColumnsDisjoint(ss: seq<Session>, s: Session, d1: nat, d2: nat)
    requires d1 < |WeekDays| && d2 < |WeekDays|
    requires s in WeeklyColumns(ss)[d1] && s in WeeklyColumns(ss)[d2]
    ensures d1 == d2
  {
    var cols := WeeklyColumns(ss);
    var i :| 0 <= i < |cols[d1]| && cols[d1][i] == s;
    var j :| 0 <= j < |cols[d2]| && cols[d2][j] == s;
    assert OnWeekday(WeekDays[d1])(s) && OnWeekday(WeekDays[d2])(s);
    if d1 != d2 {
      WeekDaysDistinct(d1, d2);
    }
  }

  /** A session whose weekday name matches a column's, ignoring case,
      appears in that column. */
  lemma WeeklyColumnsCover(ss: seq<Session>, i: nat, d: nat)
    requires i < |ss| && d < |WeekDays|
    requires ss[i].day != "" && ToLower(ss[i].day) == ToLower(WeekDays[d])
    ensures ss[i] in WeeklyColumns(ss)[d]
  {
    var cols := WeeklyColumns(ss);
    assert OnWeekday(WeekDays[d])(ss[i]);
    assert multiset(cols[d])[ss[i]] == multiset(ss)[ss[i]];
  }
}

=== FILE: seqs.dfy ===
/** Generic sequence operations underlying the planner's three collections:
    the array methods `filter`, `findIndex` and `find`, and the
    replace-or-append update that every save handler performs on a
    collection of records keyed by an id. */
module Seqs {

  datatype Option<+T> = None | Some(value: T)

  /* ---------------------------------------------------------------- */
  /* filter                                                            */
  /* ---------------------------------------------------------------- */

  /** The elements of `s` satisfying `p`, in their original order. */
  function Filter<T>(s: seq<T>, p: T -> bool): (r: seq<T>)
    ensures |r| <= |s|
    ensures forall i :: 0 <= i < |r| ==> p(r[i])
    ensures forall i :: 0 <= i < |s| && p(s[i]) ==> s[i] in r
    ensures forall x :: x in r ==> x in s
  {
    if s == [] then []
    else if p(s[0]) then [s[0]] + Filter(s[1..], p)
    else Filter(s[1..], p)
  }

  /** `a` is obtained from `b` by deleting elements, keeping the rest in
      order. Matching greedily from the front finds an embedding whenever
      one exists. */
  predicate IsSubsequence<T(==)>(a: seq<T>, b: seq<T>)
    decreases |b|
  {
    if a == [] then true
    else if b == [] then false
    else if a[0] == b[0] then IsSubsequence(a[1..], b[1..])
    else IsSubsequence(a, b[1..])
  }

  /** Filtering keeps the survivors in their original relative order. */
  lemma {:induction false} FilterIsSubsequence<T>(s: seq<T>, p: T -> bool)
    ensures IsSubsequence(Filter(s, p), s)
    decreases |s|
  {
    if s != [] {
      FilterIsSubsequence(s[1..], p);
      var r := Filter(s, p);
      if !p(s[0]) && r != [] {
        assert r[0] != s[0] by { assert p(r[0]); }
      }
    }
  }

  /** Filtering keeps every copy of a surviving element and no copy of a
      dropped one. */
  lemma {:induction false} FilterCount<T>(s: seq<T>, p: T -> bool, x: T)
    ensures multiset(Filter(s, p))[x] == if p(x) then multiset(s)[x] else 0
    decreases |s|
  {
    if s != [] {
      FilterCount(s[1..], p, x);
      assert s == [s[0]] + s[1..];
    }
  }

  /** Filtering by `p` and by its negation splits `s` into two parts that
      together hold exactly the elements of `s`. */
  lemma {:induction false} FilterPartition<T>(s: seq<T>, p: T -> bool, q: T -> bool)
    requires forall x :: q(x) == !p(x)
    ensures multiset(Filter(s, p)) + multiset(Filter(s, q)) == multiset(s)
    ensures |Filter(s, p)| + |Filter(s, q)| == |s|
    decreases |s|
  {
    if s != [] {
      FilterPartition(s[1..], p, q);
      assert s == [s[0]] + s[1..];
    }
  }

  /** Filtering by two predicates in turn is filtering by their conjunction. */
  lemma {:induction false} FilterFilter<T>(s: seq<T>, p: T -> bool, q: T -> bool, pq: T -> bool)
    requires forall x :: pq(x) == (p(x) && q(x))
    ensures Filter(Filter(s, p), q) == Filter(s, pq)
    decreases |s|
  {
    if s != [] {
      FilterFilter(s[1..], p, q, pq);
    }
  }

  /** Filtering only depends on the predicate's values. */
  lemma {:induction false} FilterExt<T>(s: seq<T>, p: T -> bool, q: T -> bool)
    requires forall x :: p(x) == q(x)
    ensures Filter(s, p) == Filter(s, q)
    decreases |s|
  {
    if s != [] {
      FilterExt(s[1..], p, q);
    }
  }

  /** A predicate that holds throughout `s` keeps all of it. */
  lemma {:induction false} FilterKeepsAll<T>(s: seq<T>, p: T -> bool)
    requires forall i :: 0 <= i < |s| ==> p(s[i])
    ensures Filter(s, p) == s
    decreases |s|
  {
    if s != [] {
      FilterKeepsAll(s[1..], p);
    }
  }

  /** A filter keeps its whole input exactly when every element passes. */
  lemma {:induction false} FilterFullLength<T>(s: seq<T>, p: T -> bool)
    ensures |Filter(s, p)| == |s| <==> forall i :: 0 <= i < |s| ==> p(s[i])
    decreases |s|
  {
    if s != [] {
      FilterFullLength(s[1..], p);
      if forall i :: 0 <= i < |s| ==> p(s[i]) {
        FilterKeepsAll(s, p);
      } else if p(s[0]) {
        var i :| 0 <= i < |s| && !p(s[i]);
        assert !p(s[1..][i - 1]);
      }
    }
  }

  /** The positions of `s` whose element satisfies `p`. */
  function Positions<T>(s: seq<T>, p: T -> bool): set<nat>
  {
    set i: nat | i < |s| && p(s[i])
  }

  /** Every position moved one step to the right. */
  function Shift(b: set<nat>): set<nat>
  {
    set i | i in b :: i + 1
  }

  /** Shifting a set of positions keeps its size. */
  lemma {:induction false} ShiftedCard(b: set<nat>)
    ensures |Shift(b)| == |b|
    decreases |b|
  {
    if b != {} {
      var x :| x in b;
      ShiftedCard(b - {x});
      forall y | y in Shift(b) ensures y in Shift(b - {x}) + {x + 1} {
        var i :| i in b && y == i + 1;
        if i != x { assert i in b - {x}; }
      }
      assert Shift(b) == Shift(b - {x}) + {x + 1};
      assert b == (b - {x}) + {x};
    }
  }

  /** The positions of a non-empty sequence are those of its tail moved
      one step right, plus 0 when the head qualifies. */
  lemma PositionsStep<T>(s: seq<T>, p: T -> bool)
    requires s != []
    ensures Positions(s, p) == Shift(Positions(s[1..], p)) + (if p(s[0]) then {0} else {})
    ensures 0 !in Shift(Positions(s[1..], p))
  {
    var shifted := Shift(Positions(s[1..], p));
    forall i | i in Positions(s, p) && i != 0 ensures i in shifted {
      assert s[1..][i - 1] == s[i];
      assert i - 1 in Positions(s[1..], p);
    }
  }

  /** A filter keeps one element per position that satisfies the
      predicate. */
  lemma {:induction false} FilterLengthIsCount<T>(s: seq<T>, p: T -> bool)
    ensures |Filter(s, p)| == |Positions(s, p)|
    decreases |s|
  {
    if s == [] {
      assert Positions(s, p) == {};
    } else {
      FilterLengthIsCount(s[1..], p);
      ShiftedCard(Positions(s[1..], p));
      PositionsStep(s, p);
    }
  }

  /** Replacing a dropped element by another dropped element does not
      change the filter. */
  lemma {:induction false} FilterUpdateDropped<T>(s: seq<T>, p: T -> bool, i: nat, x: T)
    requires i < |s| && !p(s[i]) && !p(x)
    ensures Filter(s[i := x], p) == Filter(s, p)
    decreases |s|
  {
    if i > 0 {
      FilterUpdateDropped(s[1..], p, i - 1, x);
      assert s[i := x][1..] == s[1..][i - 1 := x];
    } else {
      assert s[i := x][1..] == s[1..];
    }
  }

  /** Filtering distributes over concatenation. */
  lemma {:induction false} FilterAppend<T>(a: seq<T>, b: seq<T>, p: T -> bool)
    ensures Filter(a + b, p) == Filter(a, p) + Filter(b, p)
    decreases |a|
  {
    if a != [] {
      FilterAppend(a[1..], b, p);
      assert (a + b)[1..] == a[1..] + b;
    } else {
      assert a + b == b;
    }
  }

  /** `r` consists of exactly the elements of `s` that satisfy `p`, every
      copy of each, in their order in `s`: there is only one such `r`,
      the result of Filter(s, p) (`FilterIsSelection`,
      `SelectionIsFilter`). */
  ghost predicate IsSelection<T>(r: seq<T>, s: seq<T>, p: T -> bool)
  {
    && IsSubsequence(r, s)
    && (forall i :: 0 <= i < |r| ==> p(r[i]))
    && (forall i :: 0 <= i < |s| && p(s[i]) ==> multiset(r)[s[i]] == multiset(s)[s[i]])
  }

  lemma FilterIsSelection<T>(s: seq<T>, p: T -> bool)
    ensures IsSelection(Filter(s, p), s, p)
  {
    FilterIsSubsequence(s, p);
    forall i | 0 <= i < |s| && p(s[i])
      ensures multiset(Filter(s, p))[s[i]] == multiset(s)[s[i]]
    {
      FilterCount(s, p, s[i]);
    }
  }

  /** A subsequence never holds more copies of anything than the whole. */
  lemma {:induction false} SubsequenceSubMultiset<T>(a: seq<T>, b: seq<T>)
    requires IsSubsequence(a, b)
    ensures multiset(a) <= multiset(b)
    decreases |b|
  {
    if a != [] {
      assert b == [b[0]] + b[1..];
      if a[0] == b[0] {
        SubsequenceSubMultiset(a[1..], b[1..]);
        assert a == [a[0]] + a[1..];
      } else {
        SubsequenceSubMultiset(a, b[1..]);
      }
    }
  }

  /** A subsequence that does not start with the whole's head has fewer
      copies of that head. */
  lemma SubsequenceSkippingHead<T>(a: seq<T>, b: seq<T>)
    requires IsSubsequence(a, b) && a != [] && b != []
    ensures a[0] != b[0] ==> multiset(a)[b[0]] < multiset(b)[b[0]]
  {
    if a[0] != b[0] {
      SubsequenceSubMultiset(a, b[1..]);
      assert b == [b[0]] + b[1..];
    }
  }

  /** A selection keeps the head of `s` in front when the head qualifies. */
  lemma SelectionHead<T>(r: seq<T>, s: seq<T>, p: T -> bool)
    requires IsSelection(r, s, p) && s != [] && p(s[0])
    ensures r != [] && r[0] == s[0]
  {
    assert multiset(r)[s[0]] == multiset(s)[s[0]];
    assert s[0] in multiset(s);
    SubsequenceSkippingHead(r, s);
  }

  /** The selection is unique: whatever satisfies `IsSelection` is the
      result of `Filter`. */
  lemma {:induction false} SelectionIsFilter<T>(r: seq<T>, s: seq<T>, p: T -> bool)
    requires IsSelection(r, s, p)
    ensures r == Filter(s, p)
    decreases |s|
  {
    if s != [] {
      var t := s[1..];
      assert s == [s[0]] + t;
      if p(s[0]) {
        SelectionHead(r, s, p);
        var u := r[1..];
        assert r == [r[0]] + u;
        forall i | 0 <= i < |t| && p(t[i]) ensures multiset(u)[t[i]] == multiset(t)[t[i]] {
          assert s[i + 1] == t[i];
        }
        assert forall i :: 0 <= i < |u| ==> p(u[i]) by {
          forall i | 0 <= i < |u| ensures p(u[i]) { assert u[i] == r[i + 1]; }
        }
        SelectionIsFilter(u, t, p);
      } else {
        forall i | 0 <= i < |t| && p(t[i]) ensures multiset(r)[t[i]] == multiset(t)[t[i]] {
          assert s[i + 1] == t[i];
        }
        assert r != [] ==> p(r[0]);
        SelectionIsFilter(r, t, p);
      }
    }
  }

  /** A prefix never holds more copies of anything than the whole. */
  lemma PrefixSubMultiset<T>(s: seq<T>, k: nat)
    requires k <= |s|
    ensures multiset(s[..k]) <= multiset(s)
  {
    assert s == s[..k] + s[k..];
  }

  /** Filtering never adds copies. */
  lemma FilterSubMultiset<T>(s: seq<T>, p: T -> bool)
    ensures multiset(Filter(s, p)) <= multiset(s)
  {
    forall x ensures multiset(Filter(s, p))[x] <= multiset(s)[x] {
      FilterCount(s, p, x);
    }
  }

  /** Replacing one element changes the number of survivors by the
      difference the old and the new element make. */
  lemma {:induction false} FilterUpdateLength<T>(s: seq<T>, p: T -> bool, i: nat, x: T)
    requires i < |s|
    ensures |Filter(s[i := x], p)| == |Filter(s, p)| - (if p(s[i]) then 1 else 0) + (if p(x) then 1 else 0)
    decreases |s|
  {
    if i > 0 {
      FilterUpdateLength(s[1..], p, i - 1, x);
      assert s[i := x][1..] == s[1..][i - 1 := x];
    } else {
      assert s[i := x][1..] == s[1..];
    }
  }

  /* ---------------------------------------------------------------- */
  /* records keyed by an id                                           */
  /* ---------------------------------------------------------------- */

  /** The set of keys present in `s`. */
  function Keys<T, K>(s: seq<T>, key: T -> K): set<K>
  {
    set i | 0 <= i < |s| :: key(s[i])
  }

  /** No two positions of `s` carry the same key. */
  predicate UniqueKeys<T, K(==)>(s: seq<T>, key: T -> K)
  {
    forall i, j :: 0 <= i < j < |s| ==> key(s[i]) != key(s[j])
  }

  /** findIndex on a key: the first position holding key `k`, or -1 when
      there is none. */
  function FirstIndex<T, K(==)>(s: seq<T>, key: T -> K, k: K): (r: int)
    ensures -1 <= r < |s|
    ensures r == -1 <==> k !in Keys(s, key)
    ensures 0 <= r ==> key(s[r]) == k && forall i :: 0 <= i < r ==> key(s[i]) != k
    decreases |s|
  {
    if s == [] then -1
    else if key(s[0]) == k then 0
    else
      var j := FirstIndex(s[1..], key, k);
      assert Keys(s, key) == {key(s[0])} + Keys(s[1..], key) by {
        forall y | y in Keys(s, key) ensures y in {key(s[0])} + Keys(s[1..], key) {
          var i :| 0 <= i < |s| && key(s[i]) == y;
          if i > 0 { assert key(s[1..][i - 1]) == y; }
        }
      }
      if j < 0 then -1 else j + 1
  }

  /** Two sequences whose keys agree position by position have the same
      first index for every key. */
  lemma {:induction false} FirstIndexSameKeys<T, K>(s: seq<T>, t: seq<T>, key: T -> K, k: K)
    requires |s| == |t|
    requires forall i :: 0 <= i < |s| ==> key(s[i]) == key(t[i])
    ensures FirstIndex(s, key, k) == FirstIndex(t, key, k)
    decreases |s|
  {
    if s != [] && key(s[0]) != k {
      FirstIndexSameKeys(s[1..], t[1..], key, k);
    }
  }

  /** find on a key: the first element holding key `k`, if any. */
  function Find<T, K(==)>(s: seq<T>, key: T -> K, k: K): (r: Option<T>)
    ensures r.None? <==> k !in Keys(s, key)
    ensures r.Some? ==> exists i :: 0 <= i < |s| && s[i] == r.value && key(s[i]) == k
                                     && forall j :: 0 <= j < i ==> key(s[j]) != k
  {
    var i := FirstIndex(s, key, k);
    if i < 0 then None else Some(s[i])
  }

  /** Replace the first element whose key is key(x) by `x`, or append `x`
      when no element has that key. */
  function Upsert<T, K(==)>(s: seq<T>, key: T -> K, x: T): (r: seq<T>)
    ensures Keys(r, key) == Keys(s, key) + {key(x)}
    ensures key(x) in Keys(s, key) ==>
              var i := FirstIndex(s, key, key(x));
              |r| == |s| && r[i] == x && forall j :: 0 <= j < |s| && j != i ==> r[j] == s[j]
    ensures key(x) !in Keys(s, key) ==>
              |r| == |s| + 1 && r[..|s|] == s && r[|s|] == x
  {
    var i := FirstIndex(s, key, key(x));
    if i >= 0 then
      var r := s[i := x];
      assert Keys(r, key) == Keys(s, key) by {
        forall y | y in Keys(r, key) ensures y in Keys(s, key) {
          var j :| 0 <= j < |r| && key(r[j]) == y;
          if j == i { assert key(s[i]) == y; } else { assert key(s[j]) == y; }
        }
        forall y | y in Keys(s, key) ensures y in Keys(r, key) {
          var j :| 0 <= j < |s| && key(s[j]) == y;
          if j == i { assert key(r[i]) == y; } else { assert key(r[j]) == y; }
        }
      }
      r
    else
      var r := s + [x];
      assert Keys(r, key) == Keys(s, key) + {key(x)} by {
        forall y | y in Keys(r, key) ensures y in Keys(s, key) + {key(x)} {
          var j :| 0 <= j < |r| && key(r[j]) == y;
          if j < |s| { assert key(s[j]) == y; }
        }
        forall y | y in Keys(s, key) ensures y in Keys(r, key) {
          var j :| 0 <= j < |s| && key(s[j]) == y;
          assert key(r[j]) == y;
        }
        assert key(r[|s|]) == key(x);
      }
      r
  }

  /** The record just saved is the one found under its key. */
  lemma UpsertThenFind<T, K>(s: seq<T>, key: T -> K, x: T)
    ensures Find(Upsert(s, key, x), key, key(x)) == Some(x)
  {
    var r := Upsert(s, key, x);
    var i := FirstIndex(s, key, key(x));
    var n := FirstIndex(r, key, key(x));
    if i >= 0 {
      assert n == i by {
        assert forall j :: 0 <= j < i ==> key(r[j]) == key(s[j]);
        assert key(r[i]) == key(x);
      }
    } else {
      assert n == |s| by {
        assert forall j :: 0 <= j < |s| ==> key(r[j]) == key(s[j]);
        assert key(r[|s|]) == key(x);
      }
    }
  }

  /** Saving never creates a second record with the same key. */
  lemma UpsertKeepsKeysUnique<T, K>(s: seq<T>, key: T -> K, x: T)
    requires UniqueKeys(s, key)
    ensures UniqueKeys(Upsert(s, key, x), key)
  {
    var r := Upsert(s, key, x);
    if key(x) in Keys(s, key) {
      var i := FirstIndex(s, key, key(x));
      forall a, b | 0 <= a < b < |r| ensures key(r[a]) != key(r[b]) {
        assert key(r[a]) == key(s[a]) && key(r[b]) == key(s[b]);
      }
    } else {
      forall a, b | 0 <= a < b < |r| ensures key(r[a]) != key(r[b]) {
        if b == |s| {
          assert key(s[a]) in Keys(s, key);
        }
      }
    }
  }

  /** Saving the same record twice is the same as saving it once. */
  lemma UpsertIdempotent<T, K>(s: seq<T>, key: T -> K, x: T)
    ensures Upsert(Upsert(s, key, x), key, x) == Upsert(s, key, x)
  {
    var r := Upsert(s, key, x);
    UpsertThenFind(s, key, x);
    var i := FirstIndex(r, key, key(x));
    assert r[i] == x;
    assert r[i := x] == r;
  }

  function KeyIsNot<T, K(==)>(key: T -> K, k: K): T -> bool
  {
    x => key(x) != k
  }

  /** Remove every element whose key is `k`, keeping the rest in order. */
  function RemoveKey<T, K(==)>(s: seq<T>, key: T -> K, k: K): (r: seq<T>)
    ensures forall x :: x in r ==> x in s && key(x) != k
    ensures Keys(r, key) == Keys(s, key) - {k}
    ensures forall i :: 0 <= i < |s| && key(s[i]) != k ==> multiset(r)[s[i]] == multiset(s)[s[i]]
    ensures IsSubsequence(r, s)
  {
    var p := KeyIsNot(key, k);
    var r := Filter(s, p);
    FilterIsSubsequence(s, p);
    forall i | 0 <= i < |s| && key(s[i]) != k
      ensures multiset(r)[s[i]] == multiset(s)[s[i]]
    {
      FilterCount(s, p, s[i]);
    }
    assert Keys(r, key) == Keys(s, key) - {k} by {
      forall y | y in Keys(r, key) ensures y in Keys(s, key) - {k} {
        var j :| 0 <= j < |r| && key(r[j]) == y;
        assert p(r[j]) && r[j] in r;
        var m :| 0 <= m < |s| && s[m] == r[j];
      }
      forall y | y in Keys(s, key) - {k} ensures y in Keys(r, key) {
        var j :| 0 <= j < |s| && key(s[j]) == y;
        assert s[j] in r;
        var m :| 0 <= m < |r| && r[m] == s[j];
      }
    }
    r
  }

  /** Dropping elements never makes two keys collide. */
  lemma {:induction false} FilterKeepsKeysUnique<T, K>(s: seq<T>, p: T -> bool, key: T -> K)
    requires UniqueKeys(s, key)
    ensures UniqueKeys(Filter(s, p), key)
    decreases |s|
  {
    if s != [] {
      FilterKeepsKeysUnique(s[1..], p, key);
      var rest := Filter(s[1..], p);
      if p(s[0]) {
        var r := Filter(s, p);
        assert r == [s[0]] + rest;
        forall j | 0 <= j < |rest| ensures key(rest[j]) != key(s[0]) {
          assert rest[j] in rest;
          var m :| 0 <= m < |s[1..]| && s[1..][m] == rest[j];
          assert s[m + 1] == rest[j];
        }
        forall a, b | 0 <= a < b < |r| ensures key(r[a]) != key(r[b]) {
          if a == 0 { assert r[b] == rest[b - 1]; }
          else { assert r[a] == rest[a - 1] && r[b] == rest[b - 1]; }
        }
      }
    }
  }

  /** Deleting by one key (say, the subject a record refers to) keeps
      another key (the record's own id) unique. */
  lemma RemoveKeepsKeysUnique<T, K, J>(s: seq<T>, key: T -> K, ref: T -> J, j: J)
    requires UniqueKeys(s, key)
    ensures UniqueKeys(RemoveKey(s, ref, j), key)
  {
    FilterKeepsKeysUnique(s, KeyIsNot(ref, j), key);
  }

  /** Records that referred into `valid` refer into `valid - {k}` once
      every record referring to `k` is removed: the delete cascade leaves
      no dangling reference to the deleted key. */
  lemma RemovePrunesReferences<T, K>(s: seq<T>, ref: T -> K, k: K, valid: set<K>)
    requires forall i :: 0 <= i < |s| ==> ref(s[i]) in valid
    ensures forall i :: 0 <= i < |RemoveKey(s, ref, k)| ==> ref(RemoveKey(s, ref, k)[i]) in valid - {k}
  {
    var r := RemoveKey(s, ref, k);
    forall i | 0 <= i < |r| ensures ref(r[i]) in valid - {k} {
      assert r[i] in r;
      var j :| 0 <= j < |s| && s[j] == r[i];
    }
  }

  /** Removing a key that is absent changes nothing. */
  lemma RemoveAbsentKey<T, K>(s: seq<T>, key: T -> K, k: K)
    requires k !in Keys(s, key)
    ensures RemoveKey(s, key, k) == s
  {
    var p := KeyIsNot(key, k);
    forall i | 0 <= i < |s| ensures p(s[i]) {
      assert key(s[i]) in Keys(s, key);
    }
    FilterKeepsAll(s, p);
  }

  /** Deleting a key right after saving under it is the same as deleting
      it without the save: in particular, adding a record with a new key
      and deleting it restores the collection. */
  lemma RemoveAfterUpsert<T, K>(s: seq<T>, key: T -> K, x: T)
    ensures RemoveKey(Upsert(s, key, x), key, key(x)) == RemoveKey(s, key, key(x))
  {
    var p := KeyIsNot(key, key(x));
    if key(x) in Keys(s, key) {
      var i := FirstIndex(s, key, key(x));
      assert Upsert(s, key, x) == s[i := x];
      FilterUpdateDropped(s, p, i, x);
    } else {
      FilterAppend(s, [x], p);
      assert Filter([x], p) == [];
    }
  }
}

=== FILE: sorting.dfy ===
/** The stable ascending sort by deadline that orders the upcoming
    deadlines panel, written as an insertion sort on sequences. The
    comparator subtracts the two deadlines, so tasks compare by deadline
    alone, and the array sort is stable, so tasks with equal deadlines
    keep their order. */
module DeadlineSort {
  import opened Seqs
  import opened Records

  predicate SortedByDeadline(s: seq<Task>)
  {
    forall i, j :: 0 <= i < j < |s| ==> s[i].deadline <= s[j].deadline
  }

  /** Insert `x` before the first task that is due no earlier than it. */
  function InsertByDeadline(x: Task, s: seq<Task>): (r: seq<Task>)
    requires SortedByDeadline(s)
    ensures SortedByDeadline(r)
    ensures multiset(r) == multiset(s) + multiset{x}
    ensures forall t :: t in r ==> t == x || t in s
    decreases |s|
  {
    if s == [] || x.deadline <= s[0].deadline then [x] + s
    else
      var rest := InsertByDeadline(x, s[1..]);
      assert s == [s[0]] + s[1..];
      InsertAfterHead(x, s, rest);
      [s[0]] + rest
  }

  /** When `x` goes past the head of a sorted sequence, everything the
      insertion into the tail yields is due no earlier than that head. */
  lemma InsertAfterHead(x: Task, s: seq<Task>, rest: seq<Task>)
    requires SortedByDeadline(s) && s != [] && s[0].deadline < x.deadline
    requires forall t :: t in rest ==> t == x || t in s[1..]
    ensures forall j :: 0 <= j < |rest| ==> s[0].deadline <= rest[j].deadline
  {
    forall j | 0 <= j < |rest| ensures s[0].deadline <= rest[j].deadline {
      assert rest[j] in rest;
      if rest[j] != x {
        var k :| 0 <= k < |s[1..]| && s[1..][k] == rest[j];
        assert s[k + 1] == rest[j];
      }
    }
  }

  /** The tasks sorted by ascending deadline. */
  function SortByDeadline(s: seq<Task>): (r: seq<Task>)
    ensures SortedByDeadline(r)
    ensures multiset(r) == multiset(s)
    ensures |r| == |s|
    decreases |s|
  {
    if s == [] then []
    else
      assert s == [s[0]] + s[1..];
      InsertByDeadline(s[0], SortByDeadline(s[1..]))
  }

  function HasDeadline(d: int): Task -> bool
  {
    (t: Task) => t.deadline == d
  }

  /** Inserting `x` keeps it ahead of the tasks that share its deadline. */
  lemma {:induction false} InsertIsStable(x: Task, s: seq<Task>, d: int)
    requires SortedByDeadline(s)
    ensures Filter(InsertByDeadline(x, s), HasDeadline(d)) == Filter([x] + s, HasDeadline(d))
    decreases |s|
  {
    if s != [] && x.deadline > s[0].deadline {
      InsertIsStable(x, s[1..], d);
      var p := HasDeadline(d);
      var rest := InsertByDeadline(x, s[1..]);
      assert ([s[0]] + rest)[1..] == rest;
      assert ([x] + s)[1..] == s;
      assert ([x] + s[1..])[1..] == s[1..];
    }
  }

  /** Sorting is stable: the tasks sharing any one deadline appear in the
      same order before and after. */
  lemma {:induction false} SortIsStable(s: seq<Task>, d: int)
    ensures Filter(SortByDeadline(s), HasDeadline(d)) == Filter(s, HasDeadline(d))
    decreases |s|
  {
    if s != [] {
      SortIsStable(s[1..], d);
      InsertIsStable(s[0], SortByDeadline(s[1..]), d);
      assert ([s[0]] + SortByDeadline(s[1..]))[1..] == SortByDeadline(s[1..]);
    }
  }
}
